=== FILE: README.md ===
# Zone store of the octoDNS zone editor, in Dafny

The editor keeps DNS zones as one YAML file per zone (`<zone>.yaml`) in a
configured directory, and serves pages that list, view, create and edit them.
This project models the logic under the HTTP layer, over an abstract zone
directory:

- the directory is `Absent` or `Present(map file-name -> Entry)`, where an
  `Entry` is a readable `File(text)` or an `Unreadable(reason)` entry (a
  sub-directory called `x.yaml`, a permission failure);
- PyYAML's `safe_load` and `dump` are function-typed parameters
  (`Parser`, `Dumper`). A parse returns the document, raises a `YAMLError`,
  or raises some other exception (`ValueError` for an impossible date,
  `RecursionError` for deep nesting), because the handlers catch these
  differently. The round trip is never assumed globally: a lemma that needs
  it takes `RoundTrips(parse, dump, v)` for its particular value as a
  hypothesis;
- loaded YAML is a `Value` (null, bool, int, str, list, dict, and `Other` for
  the remaining types `safe_load` builds, such as float, date, bytes and set, with
  only their Python type name and truthiness), so
  Python truthiness in `if data` and `or {}` is modelled exactly.

Modules follow the parts of `app/app.py`:

| module | models |
|---|---|
| `Records` (records.dfy) | the record count of the listing |
| `PyStr` (pystr.dfy) | `str.strip`, `str.replace(' ', '-')`, `str.lower` |
| `ZoneStore` (zone_store.dfy) | `load_zone`, `save_zone` |
| `Listing` (listing.dfy) | `get_zone_files` |
| `Forms` (forms.dfy) | POST of `new_zone` and `edit_zone`, the edit form's text |
| `Identity` (identity.dfy) | `get_user_info` |
| `Base`, `Yaml`, `Sequences` | `Option`/`Result`, loaded values, sequence permutation facts |

Behaviour of the code worth noting:

- A zone file that is empty or holds `null` is listed with `records: 0` and
  **no** error, because the `if data` guard short-circuits before anything can
  raise (`Listing.EmptyFileListedWithoutError`). The same holds for any falsy
  document such as `0`, `''` or `[]`. Only read failures, parse failures, and
  truthy documents that are not mappings produce an error.
- The edit form saves whatever the submitted text parses to, whether or not it
  is a mapping. A truthy list or scalar is written as-is and only shows up
  later as an error in the listing; a falsy one is listed with 0 records and
  no error, as above.
- `yaml.dump` writes dict keys in sorted order, so a saved dict reads back as
  the same Python dict with its items possibly reordered. `Yaml.Equiv` is that
  equality (dict item order ignored), and `RoundTrips(parse, dump, v)` says
  the dump of `v` parses back to a value `Equiv` to `v`. It is a hypothesis of
  the lemmas that need it, not a proved fact. The creation placeholder has its
  keys already in order, so its lemmas take the exact round trip instead.
- The edit form catches only `yaml.YAMLError`. Any other exception raised
  while parsing the submitted text escapes the handler as a server error, and
  nothing is saved (`Forms.EditPost`). The listing, by contrast, catches
  every exception.
- `load_zone` replaces every falsy document with `{}`, not only null or empty
  text.

One edge case also follows from the code: a hidden file named exactly `.yaml`
has `Path.stem` `.yaml`. It is listed under the name `.yaml`, but that name's
zone file is `.yaml.yaml`. `Listing.Stem` only promises `ZoneFile(Stem(f)) == f`
for matched names longer than five characters.

## Model

| member | source | states |
|---|---|---|
| Yaml.Truthy | app/app.py:38 | Python's `bool()` of a loaded value: false exactly for null, `false`, `0`, the empty string, list and dict, and the falsy `Other` values |
| Records.Contribution | app/app.py:37 | one dict value's share of the count: the length of a list, 1 for anything else |
| Records.RecordCount | app/app.py:37 | the `sum(...)` of the contributions of all values of the dict |
| Records.RecordList | app/app.py:37 | the individual records: each item of a list value, or the value itself |
| ZoneStore.ZoneFile | app/app.py:56 | the zone's file name `<zone>.yaml` |
| ZoneStore.ZoneExists | app/app.py:57 | `Path.exists()` of the zone's file in the directory |
| ZoneStore.ReadEntry | app/app.py:60-61 | `open` then `safe_load`: the parsed document, or the message of whatever either raises |
| Listing.IsYamlFile | app/app.py:33 | a name `glob('*.yaml')` matches: it ends in `.yaml` |
| Listing.YamlFiles | app/app.py:33 | the directory entries `glob('*.yaml')` visits |
| Listing.LastDot | app/app.py:40 | the last `.` of the name, the split point of `Path.stem` |
| Listing.CountOf | app/app.py:37-38 | the count with the `if data else 0` guard: the record count of a truthy dict, 0 for falsy data |
| Identity.OrElse | app/app.py:18-20 | Python's `a or b` on an optional header: the header when present and non-empty, otherwise the fallback |
| Forms.FormText | app/app.py:102 | `request.form.get(field, '')`: the submitted text, or the empty string when the field is missing |
| Records.RecordCountIsNumberOfRecords | app/app.py:37-38 | the count equals the number of individual records: each item of a list value, or the value itself |
| Records.RecordCountAppend | app/app.py:37-38 | the count of concatenated dict items is the sum of the counts |
| Records.RecordCountWithoutLists | app/app.py:37-38 | with no list values, the count is the number of top-level keys |
| Records.RecordCountPermutation | app/app.py:37-38 | the count does not depend on the order of the dict's items |
| Records.CountRecords | app/app.py:37-38 | the generator sum computed by a loop equals the record count and the number of records |
| PyStr.StripLeft | app/app.py:127 | drops exactly the leading whitespace: the dropped prefix is whitespace and the result does not start with whitespace |
| PyStr.StripRight | app/app.py:127 | drops exactly the trailing whitespace |
| PyStr.Strip | app/app.py:127 | the stripped name is the slice of the submitted name between a whitespace prefix and a whitespace suffix; it is empty iff the name is all whitespace, and otherwise both its ends are non-whitespace |
| PyStr.ReplaceSpaces | app/app.py:132 | no space remains, spaces became hyphens, every other character is unchanged |
| PyStr.Lower | app/app.py:132 | no ASCII upper-case letter remains, upper-case letters are shifted to lower case, others unchanged |
| Yaml.ReorderedMappingEquiv | app/app.py:70 | a dict whose items are reordered, as `yaml.dump` does by sorting keys, is equivalent to the original |
| Yaml.EquivKeepsTypeAndTruth | app/app.py:61 | equivalent values have the same type and truthiness, so `or {}` and the listing's `if data` treat them alike |
| Yaml.EquivReflexive | app/app.py:70 | every value is equivalent to itself |
| Yaml.EquivSymmetric | app/app.py:70 | equivalence is symmetric |
| Yaml.EquivTransitive | app/app.py:70 | equivalence is transitive |
| ZoneStore.ZoneFileInjective | app/app.py:56 | distinct zone names address distinct files |
| ZoneStore.LoadZone | app/app.py:54-61 | None iff the file is absent; a read or parse failure of any kind escapes; truthy data is returned as parsed and falsy data (null, empty, `0`, `[]` ...) becomes `{}` |
| ZoneStore.SaveZone | app/app.py:64-70 | the directory exists afterwards, the zone's file holds the dump of the data, no other entry changes |
| ZoneStore.SaveThenLoad | app/app.py:54-70 | when the dump parses back to an equivalent value, loading after saving finds the data up to dict item order, or `{}` for falsy data |
| ZoneStore.SaveThenLoadExactly | app/app.py:54-70 | when the dump parses back to exactly the data, loading after saving returns it, or `{}` for falsy data |
| ZoneStore.SaveKeepsOtherZones | app/app.py:64-70 | saving one zone does not change what any other zone loads as |
| ZoneStore.SaveOverwrites | app/app.py:64-70 | a second save of a zone replaces the first unconditionally |
| Listing.Stem | app/app.py:40-41 | the listed name of `<zone>.yaml` is a zone whose file is that file; `.yaml` itself keeps its full name |
| Listing.StemOfZoneFile | app/app.py:40-41 | every non-empty zone name is listed under itself |
| Listing.Summarize | app/app.py:34-50 | a summary has no error iff the file reads, parses and is a mapping or falsy; with an error the count is 0, without one it is the record count |
| Listing.OneSummaryPerFile | app/app.py:33-51 | exactly one summary per `*.yaml` entry, no file twice, errors exactly on the failing files, and their count is 0 |
| Listing.ListZones | app/app.py:25-51 | a missing directory is created and lists nothing; otherwise the directory is unchanged and every `*.yaml` file gets one summary whatever the others do |
| Listing.ListingOrderIrrelevant | app/app.py:33 | any two enumeration orders of the directory give the same multiset of summaries |
| Listing.MappingFileSummary | app/app.py:35-43 | a file parsing to a mapping without lists is listed under its stem with one record per key (0 for `{}`) and no error |
| Listing.MalformedFileSummary | app/app.py:44-50 | a file whose parse raises, a `YAMLError` or any other exception, is listed under its stem with 0 records and the exception's message |
| Listing.TwoFileListing | app/app.py:33-51 | a valid `a.yaml` with one record and a malformed `b.yaml` list as `a` with one record and `b` with 0 records and the error, in any order |
| Listing.EmptyFileListedWithoutError | app/app.py:36-43 | a file holding null is listed with 0 records and no error |
| Identity.GetUserInfo | app/app.py:14-22 | id and username pass through; the name is the display name, else the username, else "Unknown", with empty values falling through; it is never empty |
| Identity.NameComesFromHeaders | app/app.py:18-20 | the shown name is one of the forwarded header values or "Unknown" |
| Forms.NormalizeZoneName | app/app.py:132 | same length, no space, no ASCII upper-case letter; spaces become hyphens, ASCII upper-case letters their lower-case forms, and every other character stays in place |
| Forms.NormalizeFixedPoints | app/app.py:132 | normalisation leaves a name unchanged iff it has no space and no ASCII upper-case letter |
| Forms.NormalizeIdempotent | app/app.py:132 | normalising twice equals normalising once |
| Forms.NewZonePost | app/app.py:126-141 | "Zone name required" iff the name is all whitespace; "already exists" iff the normalised file exists (ASCII lower-casing); both leave the directory unchanged; otherwise exactly one entry is added, at the normalised name, holding the placeholder |
| Forms.CreateZone | app/app.py:133-140 | "already exists" iff the zone's file exists, leaving the directory unchanged; otherwise a redirect to the zone, with the placeholder added as the only new entry and every other entry unchanged |
| Forms.CreateThenLoad | app/app.py:140 | when the placeholder's dump parses back to it, a zone created under a free name loads as `{'': {'type': 'A', 'value': ''}}` |
| Forms.CreateTwiceRejected | app/app.py:133-137 | creating a zone a second time is rejected with "already exists" and changes nothing, not even that zone's file |
| Forms.CreatedZoneListing | app/app.py:140 | when the placeholder's dump parses back to it, a zone created under a free non-empty name is listed under that name with one record and no error |
| Forms.EditPost | app/app.py:100-111 | text whose parse raises a `YAMLError` is echoed back unchanged with "YAML Error: ..."; any other parse exception escapes as a server error; neither saves anything; parsed text is saved to the zone and the user is redirected to it |
| Forms.EditThenLoad | app/app.py:101-105 | when the data round-trips, after a successful edit the zone loads as the submitted data up to dict item order, or `{}` for falsy data |
| Forms.EditFormText | app/app.py:113-114 | an absent zone, and one that loads as `{}`, give an empty form; a zone with data gives the dump of the loaded data; a load failure escapes |
| Forms.UnchangedResubmitKeepsZone | app/app.py:100-114 | submitting the pre-filled edit form unchanged keeps the zone's data up to dict item order, when the displayed text parses back to an equivalent value that round-trips |

## Left out

- Flask routing, `render_template`, `redirect`/`url_for`, `jsonify` and HTTP status codes. The 404 answers of `view_zone` and `api_zone` are exactly the `NotFound` case of `ZoneStore.LoadZone`, A parse exception other than `YAMLError` in the POST branch of `edit_zone` is `Forms.EditPost`'s `ServerError`; a load failure in its GET branch is `Forms.EditFormText`'s `Err`, and in `view_zone`/`api_zone` it is `ZoneStore.LoadZone`'s `Raised`. Each of these escapes to Flask's 500 answer.
- The YAML grammar. `safe_load` and `dump` are parameters, and the save/load round trip is a per-lemma hypothesis because it depends on the library. `Yaml.Equiv` is stricter than Python's `==` across types (`1 == True` in Python), which a round trip through the same library never needs. `Other` keeps only a type name and truthiness, so the round-trip lemmas say nothing about the contents of floats, dates, bytes or sets.
- Real filesystem behaviour. The directory is a flat map from file names to entries. A zone name containing `/` is an opaque key here, so path traversal is not modelled; the source does not guard against it either.
- Write failures. `open(zone_file, 'w')` raising, including on a directory named `<zone>.yaml`, is not modelled, so `ZoneStore.SaveZone` always succeeds.
- A zone path that exists but is not a directory. The model's directory is either absent or a directory.
- Listing.ListZones: the enumeration order of `glob` is a parameter that must list each `*.yaml` entry once. `Listing.ListingOrderIrrelevant` shows that the order does not affect the result.
- PyStr.Lower: maps only ASCII `A`-`Z`. Python's `lower()` also folds other Unicode upper-case letters, some of them into two characters.
- Forms.NormalizeZoneName: inherits the ASCII-only lower-casing of `PyStr.Lower`; a name such as `Ä` keeps its letter, where Python would give `ä`.
- Forms.NormalizeFixedPoints: inherits the ASCII-only lower-casing of `PyStr.Lower`; a name with a non-ASCII upper-case letter counts as normalised here but not in Python.
- Forms.NewZonePost: inherits the ASCII-only lower-casing of `PyStr.Lower`; for a name with a non-ASCII upper-case letter it checks and creates a different file than the source does.
- Identity.GetUserInfo: header lookup is by exact name. Werkzeug's case-insensitive header matching is not modelled.
- Exception texts are modelled only as present. The parser's message and the `Unreadable` reason are carried through. For `data.values()` on a non-dict, the text is Python's usual "'<type>' object has no attribute 'values'".
- The `requests` import, `SUPERVISOR_TOKEN`, the `DNS_PROVIDER` label and the environment-variable configuration. They are unused or used only for display.
- Concurrent writers. There is no locking in the source, and the last writer wins (`ZoneStore.SaveOverwrites` states the sequential case).
- The port and debug settings of `app.run`.

=== FILE: base.dfy ===
/** Failure-carrying wrappers shared by the whole model. */
module Base {

  /** A value that may be absent, like Python's `None`. */
  datatype Option<T> = None | Some(value: T)

  /** The outcome of an operation that can raise: a value, or the text of the exception. */
  datatype Result<T> = Ok(value: T) | Err(msg: string)
}

=== FILE: forms.dfy ===
/** The POST branches of `new_zone` and `edit_zone`, and the edit form's
    pre-filled text (app/app.py), as transitions of the zone directory. */
module Forms {
  import opened Base
  import opened Yaml
  import opened PyStr
  import opened ZoneStore
  import opened Listing

  /** What `new_zone` answers: the form again with an error, or a redirect
      to the new zone's edit page. */
  datatype NewZoneResponse = NewZoneForm(error: string) | GoToEdit(zone: string)

  /** What `edit_zone` answers: the form again with the submitted text and an
      error, a redirect to the zone's view page, or, when an exception other
      than a `YAMLError` escapes the handler, Flask's 500 Internal Server
      Error carrying that exception's message. */
  datatype EditResponse =
    | EditForm(yamlContent: string, error: string)
    | GoToView(zone: string)
    | ServerError(msg: string)

  /** A handler's effect: the zone directory afterwards and the answer. */
  datatype Outcome<R> = Outcome(dir: Dir, response: R)

  /** `request.form.get(field, '')`. */
  function FormText(field: Option<string>): string {
    if field.Some? then field.value else ""
  }

  /** The sanitising step: spaces become hyphens, then the name is
      lower-cased. The result has the same length, no space and no
      upper-case letter, holds each upper-case letter's lower-case form in
      its place, and keeps every other character in place. */
  function NormalizeZoneName(name: string): (r: string)
    ensures |r| == |name|
    ensures forall i :: 0 <= i < |r| ==> r[i] != ' ' && !IsUpper(r[i])
    ensures forall i :: 0 <= i < |r| && name[i] == ' ' ==> r[i] == '-'
    ensures forall i :: 0 <= i < |r| && IsUpper(name[i]) ==> r[i] == LowerChar(name[i])
    ensures forall i :: 0 <= i < |r| && name[i] != ' ' && !IsUpper(name[i]) ==> r[i] == name[i]
  {
    Lower(ReplaceSpaces(name))
  }

  /** A name the sanitising step leaves alone. */
  predicate IsNormalized(name: string) {
    forall i :: 0 <= i < |name| ==> name[i] != ' ' && !IsUpper(name[i])
  }

  /** The normalised names are exactly the names normalisation does not change. */
  lemma NormalizeFixedPoints(name: string)
    ensures NormalizeZoneName(name) == name <==> IsNormalized(name)
  {
    if IsNormalized(name) {
      var r := NormalizeZoneName(name);
      forall i | 0 <= i < |name| ensures r[i] == name[i] {}
    }
  }

  /** Sanitising twice is sanitising once. */
  lemma NormalizeIdempotent(name: string)
    ensures NormalizeZoneName(NormalizeZoneName(name)) == NormalizeZoneName(name)
  {
    NormalizeFixedPoints(NormalizeZoneName(name));
  }

  /** The zone every new zone starts with: `{'': {'type': 'A', 'value': ''}}`,
      one apex A record with an empty value. */
  const Placeholder: Value :=
    Mapping([Pair(Str(""), Mapping([Pair(Str("type"), Str("A")), Pair(Str("value"), Str(""))]))])

  /** The error shown for a name that is already taken. */
  function ExistsMessage(zone: string): string {
    "Zone '" + zone + "' already exists"
  }

  const NameRequired: string := "Zone name required"

  /** The two messages of the creation form differ. */
  lemma MessagesDiffer(zone: string)
    ensures ExistsMessage(zone) != NameRequired
  {
    assert ExistsMessage(zone)[5] == '\'' && NameRequired[5] == 'n';
  }

  /** Creation under an already normalised name: refused if its file exists,
      leaving the directory as it was; otherwise the placeholder is written
      there and only there. */
  function CreateZone(dir: Dir, zone: string, dump: Dumper): (r: Outcome<NewZoneResponse>)
    ensures ZoneExists(dir, zone) <==> r.response == NewZoneForm(ExistsMessage(zone))
    ensures !ZoneExists(dir, zone) <==> r.response == GoToEdit(zone)
    ensures r.response.NewZoneForm? ==> r.dir == dir
    ensures r.response.GoToEdit? ==>
      && r.dir.Present?
      && r.dir.entries.Keys == Entries(dir).Keys + {ZoneFile(zone)}
      && r.dir.entries[ZoneFile(zone)] == File(dump(Placeholder))
      && (forall f :: f in Entries(dir) ==> r.dir.entries[f] == Entries(dir)[f])
  {
    if ZoneExists(dir, zone) then Outcome(dir, NewZoneForm(ExistsMessage(zone)))
    else Outcome(SaveZone(dir, zone, Placeholder, dump), GoToEdit(zone))
  }

  /** The POST branch of `new_zone`. A blank name is refused and so is a
      name whose normalised file exists; both leave the directory as it was.
      Otherwise the placeholder is written under the normalised name, which
      is the only entry that changes. */
  function NewZonePost(dir: Dir, field: Option<string>, dump: Dumper): (r: Outcome<NewZoneResponse>)
    ensures r.response.NewZoneForm? ==> r.dir == dir
    ensures r.response == NewZoneForm(NameRequired) <==> AllSpace(FormText(field))
    ensures !AllSpace(FormText(field)) ==>
      r == CreateZone(dir, NormalizeZoneName(Strip(FormText(field))), dump)
    ensures !AllSpace(FormText(field)) ==>
      var zone := NormalizeZoneName(Strip(FormText(field)));
      && (ZoneExists(dir, zone) <==> r.response == NewZoneForm(ExistsMessage(zone)))
      && (!ZoneExists(dir, zone) <==> r.response == GoToEdit(zone))
    ensures r.response.GoToEdit? ==>
      && r.response.zone != [] && IsNormalized(r.response.zone)
      && !ZoneExists(dir, r.response.zone)
      && r.dir.Present?
      && r.dir.entries.Keys == Entries(dir).Keys + {ZoneFile(r.response.zone)}
      && r.dir.entries[ZoneFile(r.response.zone)] == File(dump(Placeholder))
      && (forall f :: f in Entries(dir) ==> r.dir.entries[f] == Entries(dir)[f])
  {
    var name := Strip(FormText(field));
    if name == [] then Outcome(dir, NewZoneForm(NameRequired))
    else
      var zone := NormalizeZoneName(name);
      MessagesDiffer(zone);
      CreateZone(dir, zone, dump)
  }

  /** The POST branch of `edit_zone`. Text whose parse raises a `YAMLError`
      is echoed back unchanged with the parser's message; any other
      exception from the parse escapes as a server error; neither writes
      anything. Text that parses is saved, whatever its shape, and the user
      is sent to the zone. */
  function EditPost(dir: Dir, zone: string, field: Option<string>, parse: Parser, dump: Dumper): (r: Outcome<EditResponse>)
    ensures r.response.EditForm? <==> parse(FormText(field)).YamlError?
    ensures r.response.ServerError? <==> parse(FormText(field)).OtherError?
    ensures !r.response.GoToView? ==> r.dir == dir
    ensures r.response.EditForm? ==>
      r.response == EditForm(FormText(field), "YAML Error: " + parse(FormText(field)).msg)
    ensures r.response.ServerError? ==> r.response.msg == parse(FormText(field)).msg
    ensures r.response.GoToView? ==>
      r.response.zone == zone && r.dir == SaveZone(dir, zone, parse(FormText(field)).value, dump)
  {
    var text := FormText(field);
    match parse(text)
    case YamlError(e) => Outcome(dir, EditForm(text, "YAML Error: " + e))
    case OtherError(e) => Outcome(dir, ServerError(e))
    case Parsed(data) => Outcome(SaveZone(dir, zone, data, dump), GoToView(zone))
  }

  /** The GET branch of `edit_zone`: the text the form is pre-filled with.
      An absent zone, and a zone that loads as `{}`, give an empty form; a
      zone with data gives its dump; a load failure escapes. */
  function EditFormText(dir: Dir, zone: string, parse: Parser, display: Dumper): (r: Result<string>)
    ensures !ZoneExists(dir, zone) ==> r == Ok("")
    ensures r.Err? <==> LoadZone(dir, zone, parse).Raised?
    ensures LoadZone(dir, zone, parse).Found? && Truthy(LoadZone(dir, zone, parse).data) ==>
      r == Ok(display(LoadZone(dir, zone, parse).data))
    ensures LoadZone(dir, zone, parse).Found? && !Truthy(LoadZone(dir, zone, parse).data) ==>
      r == Ok("")
    ensures r.Ok? && r.value != [] ==>
      LoadZone(dir, zone, parse).Found? && r.value == display(LoadZone(dir, zone, parse).data)
  {
    match LoadZone(dir, zone, parse)
    case NotFound => Ok("")
    case Raised(msg) => Err(msg)
    case Found(d) => if Truthy(d) then Ok(display(d)) else Ok("")
  }

  /** A created zone loads as the placeholder, whose keys `yaml.dump`
      already writes in order. */
  lemma CreateThenLoad(dir: Dir, zone: string, parse: Parser, dump: Dumper)
    requires parse(dump(Placeholder)) == Parsed(Placeholder)
    requires !ZoneExists(dir, zone)
    ensures LoadZone(CreateZone(dir, zone, dump).dir, zone, parse) == Found(Placeholder)
  {
    SaveThenLoadExactly(dir, zone, Placeholder, parse, dump);
  }

  /** Creating the same zone again is refused as a duplicate and changes nothing. */
  lemma CreateTwiceRejected(dir: Dir, zone: string, dump: Dumper)
    requires !ZoneExists(dir, zone)
    ensures var dir' := CreateZone(dir, zone, dump).dir;
      CreateZone(dir', zone, dump) == Outcome(dir', NewZoneForm(ExistsMessage(zone)))
  {
  }

  /** A created zone is listed under its name with one record and no error. */
  lemma CreatedZoneListing(dir: Dir, zone: string, parse: Parser, dump: Dumper)
    requires parse(dump(Placeholder)) == Parsed(Placeholder)
    requires zone != [] && !ZoneExists(dir, zone)
    ensures Summarize(CreateZone(dir, zone, dump).dir.entries, ZoneFile(zone), parse)
              == ZoneSummary(zone, ZoneFile(zone), 1, None)
  {
    var entries := CreateZone(dir, zone, dump).dir.entries;
    StemOfZoneFile(zone);
    assert OpenAndLoad(entries, ZoneFile(zone), parse) == Ok(Placeholder);
    assert Placeholder.pairs[..0] == [];
  }

  /** After a successful edit the zone loads as the submitted data, up to
      dict item order, or as `{}` for a falsy document, when the data
      round-trips. */
  lemma EditThenLoad(dir: Dir, zone: string, field: Option<string>, parse: Parser, dump: Dumper)
    requires parse(FormText(field)).Parsed?
    requires RoundTrips(parse, dump, parse(FormText(field)).value)
    ensures var data := parse(FormText(field)).value;
      var r := LoadZone(EditPost(dir, zone, field, parse, dump).dir, zone, parse);
      && r.Found?
      && (Truthy(data) ==> Equiv(r.data, data))
      && (!Truthy(data) ==> r.data == EmptyMapping)
  {
    SaveThenLoad(dir, zone, parse(FormText(field)).value, parse, dump);
  }

  /** Opening the edit form and submitting it untouched keeps the zone's
      data, up to dict item order, when the displayed text parses back to
      an equivalent value (to a falsy one for the empty form) that
      round-trips. */
  lemma UnchangedResubmitKeepsZone(dir: Dir, zone: string, parse: Parser, dump: Dumper, display: Dumper)
    requires LoadZone(dir, zone, parse).Found?
    requires var d := LoadZone(dir, zone, parse).data;
      var text := EditFormText(dir, zone, parse, display).value;
      && parse(text).Parsed?
      && RoundTrips(parse, dump, parse(text).value)
      && (Truthy(d) ==> Equiv(parse(text).value, d))
      && (!Truthy(d) ==> !Truthy(parse(text).value))
    ensures var d := LoadZone(dir, zone, parse).data;
      var text := EditFormText(dir, zone, parse, display).value;
      var r := LoadZone(EditPost(dir, zone, Some(text), parse, dump).dir, zone, parse);
      r.Found? && Equiv(r.data, d)
  {
    var d := LoadZone(dir, zone, parse).data;
    var text := EditFormText(dir, zone, parse, display).value;
    var d1 := parse(text).value;
    SaveThenLoad(dir, zone, d1, parse, dump);
    var r := LoadZone(EditPost(dir, zone, Some(text), parse, dump).dir, zone, parse);
    if Truthy(d) {
      EquivKeepsTypeAndTruth(d1, d);
      EquivTransitive(r.data, d1, d);
    } else {
      assert d == EmptyMapping && r.data == EmptyMapping;
    }
  }
}

=== FILE: identity.dfy ===
/** `get_user_info` (app/app.py): the identity the ingress proxy forwards in
    request headers, used only for display. */
module Identity {
  import opened Base

  /** The three forwarded headers; `None` when a header is missing. */
  datatype Headers = Headers(userId: Option<string>, displayName: Option<string>, userName: Option<string>)

  /** The user shown on every page. */
  datatype UserInfo = UserInfo(id: Option<string>, name: string, username: Option<string>)

  /** A header value Python's `or` keeps: present and non-empty. */
  predicate Usable(h: Option<string>) {
    h.Some? && h.value != []
  }

  /** `a or b` for header values: `a` unless it is missing or empty. */
  function OrElse(a: Option<string>, b: string): string {
    if Usable(a) then a.value else b
  }

  /** `get_user_info`: the id and username are passed through; the display
      name falls back to the username and then to "Unknown", an empty header
      counting as missing. */
  function GetUserInfo(h: Headers): (u: UserInfo)
    ensures u.id == h.userId && u.username == h.userName
    ensures u.name != []
    ensures Usable(h.displayName) ==> u.name == h.displayName.value
    ensures !Usable(h.displayName) && Usable(h.userName) ==> u.name == h.userName.value
    ensures !Usable(h.displayName) && !Usable(h.userName) ==> u.name == "Unknown"
  {
    UserInfo(h.userId, OrElse(h.displayName, OrElse(h.userName, "Unknown")), h.userName)
  }

  /** The name shown is always one the proxy sent, or the fixed fallback. */
  lemma NameComesFromHeaders(h: Headers)
    ensures var n := GetUserInfo(h).name;
      Some(n) == h.displayName || Some(n) == h.userName || n == "Unknown"
  {
  }
}

=== FILE: listing.dfy ===
/** `get_zone_files` (app/app.py): one summary per `*.yaml` entry of the
    zone directory, tolerant of every per-file failure. */
module Listing {
  import opened Base
  import opened Yaml
  import opened Records
  import opened ZoneStore
  import opened Sequences

  /** One row of the listing. `error` is present exactly when reading,
      parsing or counting the file raised. */
  datatype ZoneSummary = ZoneSummary(name: string, file: string, records: nat, error: Option<string>)

  /** An entry name the pattern `*.yaml` matches. */
  predicate IsYamlFile(f: string) {
    |f| >= 5 && f[|f| - 5..] == ".yaml"
  }

  /** The entries the listing visits. */
  function YamlFiles(entries: map<string, Entry>): set<string> {
    set f | f in entries && IsYamlFile(f)
  }

  /** The position of the last `.` in `f`, or -1 when there is none. */
  function LastDot(f: string): (i: int)
    ensures -1 <= i < |f|
    ensures i >= 0 ==> f[i] == '.'
    ensures forall k :: i < k < |f| ==> f[k] != '.'
    decreases |f|
  {
    if f == [] then -1
    else if f[|f| - 1] == '.' then |f| - 1
    else LastDot(f[..|f| - 1])
  }

  /** `Path.stem`: the name without its last suffix, where a suffix needs a
      `.` that is neither the first nor the last character. For a matched
      name this drops `.yaml`, except for the hidden file `.yaml` itself,
      which has no suffix. */
  function Stem(f: string): (s: string)
    ensures IsYamlFile(f) && |f| > 5 ==> ZoneFile(s) == f
    ensures f == ".yaml" ==> s == f
  {
    var i := LastDot(f);
    assert IsYamlFile(f) ==> i == |f| - 5 by {
      if IsYamlFile(f) {
        assert f[|f| - 5] == f[|f| - 5..][0] == '.';
        forall k | |f| - 5 < k < |f| ensures f[k] != '.' {
          assert f[k] == f[|f| - 5..][k - (|f| - 5)];
        }
      }
    }
    if 0 < i < |f| - 1 then f[..i] else f
  }

  /** A zone listed from its file opens that same file again. */
  lemma StemOfZoneFile(zone: string)
    requires zone != []
    ensures IsYamlFile(ZoneFile(zone)) && Stem(ZoneFile(zone)) == zone
  {
    var f := ZoneFile(zone);
    assert f[|zone|..] == ".yaml";
    ZoneFileInjective(Stem(f), zone);
  }

  /** The data has the shape the count needs: a mapping, or falsy (the
      `if data` guard then short-circuits to 0). */
  predicate Countable(d: Value) {
    !Truthy(d) || d.Mapping?
  }

  /** `open(f)`: a name that has gone from the directory raises like an
      unreadable one. No caller here opens such a name; the branch stands
      for a file removed between `glob` and `open`, which the source's
      `except Exception` would catch with `open`'s `FileNotFoundError`. */
  function OpenAndLoad(entries: map<string, Entry>, f: string, parse: Parser): Result<Value> {
    if f in entries then ReadEntry(entries[f], parse)
    else Err("[Errno 2] No such file or directory: '" + f + "'")
  }

  /** The file reads, parses and is Countable, so the listing reports no error. */
  predicate ReadsAsZone(entries: map<string, Entry>, f: string, parse: Parser) {
    OpenAndLoad(entries, f, parse).Ok? && Countable(OpenAndLoad(entries, f, parse).value)
  }

  /** The count of Countable data. */
  function CountOf(d: Value): nat {
    if Truthy(d) && d.Mapping? then RecordCount(d.pairs) else 0
  }

  /** Python's message for `data.values()` on a non-dict. */
  function NoValuesMessage(d: Value): string {
    "'" + TypeName(d) + "' object has no attribute 'values'"
  }

  /** The body of the loop: the summary of one matched file. A failure in
      any step becomes `records: 0` with an error; success carries the
      record count and no error. */
  function Summarize(entries: map<string, Entry>, f: string, parse: Parser): (s: ZoneSummary)
    ensures s.name == Stem(f) && s.file == f
    ensures s.error.None? <==> ReadsAsZone(entries, f, parse)
    ensures s.error.Some? ==> s.records == 0
    ensures s.error.None? ==> s.records == CountOf(OpenAndLoad(entries, f, parse).value)
  {
    match OpenAndLoad(entries, f, parse)
    case Err(msg) => ZoneSummary(Stem(f), f, 0, Some(msg))
    case Ok(d) =>
      if !Truthy(d) then ZoneSummary(Stem(f), f, 0, None)
      else if d.Mapping? then ZoneSummary(Stem(f), f, RecordCount(d.pairs), None)
      else ZoneSummary(Stem(f), f, 0, Some(NoValuesMessage(d)))
  }

  /** `order` is one enumeration of `files`, as `glob` may produce it. */
  predicate IsEnumeration(order: seq<string>, files: set<string>) {
    && Distinct(order)
    && (forall i :: 0 <= i < |order| ==> order[i] in files)
    && (forall f :: f in files ==> f in order)
  }

  /** The summaries of the files in `order`, in that order. */
  function SummariesOf(entries: map<string, Entry>, order: seq<string>, parse: Parser): seq<ZoneSummary> {
    MapSeq(order, f => Summarize(entries, f, parse))
  }

  /** Under an enumeration of the matched files, the listing has exactly
      one summary per file, and a summary carries an error exactly when
      its file fails to read, parse or count. */
  lemma OneSummaryPerFile(entries: map<string, Entry>, order: seq<string>, parse: Parser)
    requires IsEnumeration(order, YamlFiles(entries))
    ensures var zones := SummariesOf(entries, order, parse);
      && (forall f :: f in YamlFiles(entries) <==> exists i :: 0 <= i < |zones| && zones[i].file == f)
      && (forall i, j :: 0 <= i < j < |zones| ==> zones[i].file != zones[j].file)
      && (forall i :: 0 <= i < |zones| ==>
            (zones[i].error.Some? <==> !ReadsAsZone(entries, zones[i].file, parse)))
      && (forall i :: 0 <= i < |zones| && zones[i].error.Some? ==> zones[i].records == 0)
  {
    var zones := SummariesOf(entries, order, parse);
    forall i | 0 <= i < |zones| ensures zones[i].file == order[i] {
      assert zones[i] == Summarize(entries, order[i], parse);
    }
    forall f | f in YamlFiles(entries)
      ensures exists k :: 0 <= k < |zones| && zones[k].file == f
    {
      var k :| 0 <= k < |order| && order[k] == f;
      assert zones[k].file == f;
    }
  }

  /** `get_zone_files`. A missing directory is created and lists nothing.
      Otherwise the directory is untouched and every `*.yaml` entry gets
      exactly one summary, whatever happens to the others. `order` is the
      enumeration order of `glob`, which the source leaves unspecified. */
  method ListZones(dir: Dir, order: seq<string>, parse: Parser) returns (dir': Dir, zones: seq<ZoneSummary>)
    requires dir.Present? ==> IsEnumeration(order, YamlFiles(dir.entries))
    ensures dir.Absent? ==> dir' == Present(map[]) && zones == []
    ensures dir.Present? ==> dir' == dir && zones == SummariesOf(dir.entries, order, parse)
    ensures forall f :: f in YamlFiles(Entries(dir)) <==> exists i :: 0 <= i < |zones| && zones[i].file == f
    ensures forall i, j :: 0 <= i < j < |zones| ==> zones[i].file != zones[j].file
    ensures forall i :: 0 <= i < |zones| ==>
      (zones[i].error.Some? <==> !ReadsAsZone(Entries(dir), zones[i].file, parse))
    ensures forall i :: 0 <= i < |zones| && zones[i].error.Some? ==> zones[i].records == 0
  {
    if dir.Absent? {
      return Present(map[]), [];
    }
    dir' := dir;
    zones := [];
    var i := 0;
    while i < |order|
      invariant 0 <= i <= |order|
      invariant zones == SummariesOf(dir.entries, order[..i], parse)
    {
      assert order[..i + 1] == order[..i] + [order[i]];
      zones := zones + [Summarize(dir.entries, order[i], parse)];
      i := i + 1;
    }
    assert order[..i] == order;
    OneSummaryPerFile(dir.entries, order, parse);
  }

  /** The listing is the same collection of summaries whatever order `glob`
      enumerates the directory in. */
  lemma ListingOrderIrrelevant(entries: map<string, Entry>, a: seq<string>, b: seq<string>, parse: Parser)
    requires IsEnumeration(a, YamlFiles(entries)) && IsEnumeration(b, YamlFiles(entries))
    ensures multiset(SummariesOf(entries, a, parse)) == multiset(SummariesOf(entries, b, parse))
  {
    DistinctSameElements(a, b);
    MapSeqPermutation(a, b, f => Summarize(entries, f, parse));
  }

  /** The summary of a file that parses to a mapping whose values are not
      lists: one record per key (none for `{}`), no error. */
  lemma MappingFileSummary(entries: map<string, Entry>, zone: string, pairs: seq<Pair>, parse: Parser)
    requires zone != [] && ZoneFile(zone) in entries && entries[ZoneFile(zone)].File?
    requires parse(entries[ZoneFile(zone)].text) == Parsed(Mapping(pairs))
    requires forall i :: 0 <= i < |pairs| ==> !pairs[i].value.Seq?
    ensures Summarize(entries, ZoneFile(zone), parse) == ZoneSummary(zone, ZoneFile(zone), |pairs|, None)
  {
    StemOfZoneFile(zone);
    RecordCountWithoutLists(pairs);
  }

  /** The summary of a file whose parse raises, whatever the exception:
      no records, the exception's message. */
  lemma MalformedFileSummary(entries: map<string, Entry>, zone: string, e: string, parse: Parser)
    requires zone != [] && ZoneFile(zone) in entries && entries[ZoneFile(zone)].File?
    requires !parse(entries[ZoneFile(zone)].text).Parsed? && parse(entries[ZoneFile(zone)].text).msg == e
    ensures Summarize(entries, ZoneFile(zone), parse) == ZoneSummary(zone, ZoneFile(zone), 0, Some(e))
  {
    StemOfZoneFile(zone);
  }

  /** The zone directory of the two-file example. */
  function TwoFiles(textA: string, textB: string): map<string, Entry> {
    map[ZoneFile("a") := File(textA), ZoneFile("b") := File(textB)]
  }

  /** Both files of the two-file example are matched, and nothing else is. */
  lemma TwoFilesMatched(textA: string, textB: string)
    ensures YamlFiles(TwoFiles(textA, textB)) == {ZoneFile("a"), ZoneFile("b")}
  {
    StemOfZoneFile("a");
    StemOfZoneFile("b");
  }

  /** The listing of two files is their two summaries, in order. */
  lemma SummariesOfPair(entries: map<string, Entry>, x: string, y: string, parse: Parser)
    ensures SummariesOf(entries, [x, y], parse) == [Summarize(entries, x, parse), Summarize(entries, y, parse)]
  {
  }

  /** A directory holding a valid `a.yaml` (`ZoneFile("a")`) with one record
      and a malformed `b.yaml` lists, in any order, `a` with one record and no error and
      `b` with no records and the parser's error. */
  lemma TwoFileListing(textA: string, textB: string, e: string, order: seq<string>, parse: Parser)
    requires parse(textA) == Parsed(Mapping([Pair(Str("www"), Mapping([Pair(Str("type"), Str("A")), Pair(Str("value"), Str("1.2.3.4"))]))]))
    requires parse(textB) == YamlError(e)
    requires IsEnumeration(order, {ZoneFile("a"), ZoneFile("b")})
    ensures multiset(SummariesOf(TwoFiles(textA, textB), order, parse))
        == multiset{ZoneSummary("a", ZoneFile("a"), 1, None), ZoneSummary("b", ZoneFile("b"), 0, Some(e))}
  {
    var entries := TwoFiles(textA, textB);
    var fa, fb := ZoneFile("a"), ZoneFile("b");
    var sa, sb := ZoneSummary("a", fa, 1, None), ZoneSummary("b", fb, 0, Some(e));
    MappingFileSummary(entries, "a", parse(textA).value.pairs, parse);
    MalformedFileSummary(entries, "b", e, parse);
    SummariesOfPair(entries, fa, fb, parse);
    TwoFilesMatched(textA, textB);
    assert fa != fb;
    ListingOrderIrrelevant(entries, order, [fa, fb], parse);
    assert multiset([sa, sb]) == multiset{sa, sb};
  }

  /** An empty or null zone file is listed with no records and, unlike a
      malformed one, without an error. */
  lemma EmptyFileListedWithoutError(entries: map<string, Entry>, f: string, parse: Parser)
    requires f in entries && entries[f].File? && parse(entries[f].text) == Parsed(Null)
    ensures Summarize(entries, f, parse) == ZoneSummary(Stem(f), f, 0, None)
  {
  }
}

=== FILE: pystr.dfy ===
/** The Python `str` operations the zone-creation form applies to a name. */
module PyStr {

  /** `str.isspace()` for one character: the Unicode whitespace set Python
      strips (tab through carriage return, the information separators, space,
      NEL, NBSP and the Unicode space separators and line/paragraph separators). */
  predicate IsSpace(c: char) {
    c in Whitespace
  }

  const Whitespace: set<char> :=
    {'\t', '\n', '\U{0B}', '\U{0C}', '\r', '\U{1C}', '\U{1D}', '\U{1E}', '\U{1F}', ' ',
     '\U{85}', '\U{A0}', '\U{1680}',
     '\U{2000}', '\U{2001}', '\U{2002}', '\U{2003}', '\U{2004}', '\U{2005}',
     '\U{2006}', '\U{2007}', '\U{2008}', '\U{2009}', '\U{200A}',
     '\U{2028}', '\U{2029}', '\U{202F}', '\U{205F}', '\U{3000}'}

  /** Every character of `s` is whitespace (vacuously so for the empty string). */
  predicate AllSpace(s: string) {
    forall i :: 0 <= i < |s| ==> IsSpace(s[i])
  }

  /** `s.lstrip()`: the suffix left after dropping leading whitespace. */
  function StripLeft(s: string): (r: string)
    ensures |r| <= |s| && r == s[|s| - |r|..]
    ensures forall i :: 0 <= i < |s| - |r| ==> IsSpace(s[i])
    ensures r != [] ==> !IsSpace(r[0])
    decreases |s|
  {
    if s != [] && IsSpace(s[0]) then
      var r := StripLeft(s[1..]);
      assert s[1..][|s| - 1 - |r|..] == s[|s| - |r|..];
      r
    else s
  }

  /** `s.rstrip()`: the prefix left after dropping trailing whitespace. */
  function StripRight(s: string): (r: string)
    ensures |r| <= |s| && r == s[..|r|]
    ensures forall i :: |r| <= i < |s| ==> IsSpace(s[i])
    ensures r != [] ==> !IsSpace(r[|r| - 1])
    decreases |s|
  {
    if s != [] && IsSpace(s[|s| - 1]) then
      var r := StripRight(s[..|s| - 1]);
      assert s[..|s| - 1][..|r|] == s[..|r|];
      r
    else s
  }

  /** `r` is `s[a..b]`, and all of `s` before `a` and after `b` is whitespace. */
  predicate BetweenSpace(s: string, a: int, b: int, r: string) {
    && 0 <= a <= b <= |s|
    && r == s[a..b]
    && (forall i :: 0 <= i < a ==> IsSpace(s[i]))
    && (forall i :: b <= i < |s| ==> IsSpace(s[i]))
  }

  /** `s.strip()`: whitespace removed from both ends. The result is the
      slice of `s` between a whitespace prefix and a whitespace suffix, it
      neither starts nor ends with whitespace, and it is empty exactly when
      the input held nothing but whitespace. */
  function Strip(s: string): (r: string)
    ensures |r| <= |s|
    ensures exists a, b :: BetweenSpace(s, a, b, r)
    ensures r == [] <==> AllSpace(s)
    ensures r != [] ==> !IsSpace(r[0]) && !IsSpace(r[|r| - 1])
  {
    StripSlice(s);
    StripEmpty(s);
    StripRight(StripLeft(s))
  }

  /** The stripped text sits right after the whitespace `lstrip` removes,
      and only whitespace follows it. */
  lemma StripSlice(s: string)
    ensures BetweenSpace(s, |s| - |StripLeft(s)|, |s| - |StripLeft(s)| + |StripRight(StripLeft(s))|,
                         StripRight(StripLeft(s)))
  {
    PrefixOfSuffix(s, |s| - |StripLeft(s)|, |StripRight(StripLeft(s))|);
    StripTail(s);
  }

  /** Only whitespace follows the stripped text. */
  lemma StripTail(s: string)
    ensures var l := StripLeft(s);
      forall i :: |s| - |l| + |StripRight(l)| <= i < |s| ==> IsSpace(s[i])
  {
    var l := StripLeft(s);
    var a := |s| - |l|;
    forall i | a + |StripRight(l)| <= i < |s| ensures IsSpace(s[i]) {
      assert s[i] == l[i - a];
    }
  }

  /** A prefix of a suffix is a slice. */
  lemma PrefixOfSuffix(s: string, a: nat, n: nat)
    requires a + n <= |s|
    ensures s[a..][..n] == s[a..a + n]
  {
  }

  /** Stripping leaves nothing exactly when `s` is all whitespace. */
  lemma StripEmpty(s: string)
    ensures StripRight(StripLeft(s)) == [] <==> AllSpace(s)
  {
    var l := StripLeft(s);
    var a := |s| - |l|;
    if StripRight(l) == [] {
      forall i | a <= i < |s| ensures IsSpace(s[i]) {
        assert s[i] == l[i - a];
      }
    } else {
      assert s[a] == l[0];
    }
  }

  /** Python's `c.lower()` restricted to ASCII letters. */
  function LowerChar(c: char): char {
    if 'A' <= c <= 'Z' then (c as int + 32) as char else c
  }

  /** An ASCII upper-case letter. */
  predicate IsUpper(c: char) {
    'A' <= c <= 'Z'
  }

  /** `s.replace(' ', '-')`: every space becomes a hyphen, nothing else moves. */
  function ReplaceSpaces(s: string): (r: string)
    ensures |r| == |s|
    ensures forall i :: 0 <= i < |s| ==> r[i] != ' '
    ensures forall i :: 0 <= i < |s| && s[i] != ' ' ==> r[i] == s[i]
    ensures forall i :: 0 <= i < |s| && s[i] == ' ' ==> r[i] == '-'
  {
    seq(|s|, i requires 0 <= i < |s| => if s[i] == ' ' then '-' else s[i])
  }

  /** `s.lower()` on ASCII letters: no upper-case letter survives, and every
      other character is left as it was. */
  function Lower(s: string): (r: string)
    ensures |r| == |s|
    ensures forall i :: 0 <= i < |s| ==> !IsUpper(r[i])
    ensures forall i :: 0 <= i < |s| && !IsUpper(s[i]) ==> r[i] == s[i]
    ensures forall i :: 0 <= i < |s| && IsUpper(s[i]) ==> r[i] as int == s[i] as int + 32
  {
    seq(|s|, i requires 0 <= i < |s| => LowerChar(s[i]))
  }
}

=== FILE: records.dfy ===
/** Record counting for the zone listing: a fold over the top-level values of
    a zone mapping where a list counts its items and anything else counts once. */
module Records {
  import opened Yaml

  /** What one top-level value adds to the count: `len(v)` for a list, else 1. */
  function Contribution(v: Value): nat {
    if v.Seq? then |v.items| else 1
  }

  /** The `sum(...)` over `data.values()`, folded from the last item back. */
  function RecordCount(pairs: seq<Pair>): nat
    decreases |pairs|
  {
    if pairs == [] then 0
    else RecordCount(pairs[..|pairs| - 1]) + Contribution(pairs[|pairs| - 1].value)
  }

  /** The records a DNS provider would see: every item of a list value, or
      the single value itself. An independent reading of the count. */
  function RecordList(pairs: seq<Pair>): seq<Value>
    decreases |pairs|
  {
    if pairs == [] then []
    else
      var v := pairs[0].value;
      (if v.Seq? then v.items else [v]) + RecordList(pairs[1..])
  }

  /** Counting distributes over concatenation of the items. */
  lemma {:induction false} RecordCountAppend(a: seq<Pair>, b: seq<Pair>)
    ensures RecordCount(a + b) == RecordCount(a) + RecordCount(b)
    decreases |b|
  {
    if b == [] {
      assert a + b == a;
    } else {
      var b' := b[..|b| - 1];
      assert (a + b)[..|a + b| - 1] == a + b';
      assert (a + b)[|a + b| - 1] == b[|b| - 1];
      RecordCountAppend(a, b');
    }
  }

  /** The count is exactly the number of records the zone defines. */
  lemma {:induction false} RecordCountIsNumberOfRecords(pairs: seq<Pair>)
    ensures RecordCount(pairs) == |RecordList(pairs)|
    decreases |pairs|
  {
    if pairs != [] {
      var rest := pairs[1..];
      assert pairs == [pairs[0]] + rest;
      RecordCountAppend([pairs[0]], rest);
      assert [pairs[0]][..0] == [];
      RecordCountIsNumberOfRecords(rest);
    }
  }

  /** A zone with no multi-value records counts its top-level keys. */
  lemma {:induction false} RecordCountWithoutLists(pairs: seq<Pair>)
    requires forall i :: 0 <= i < |pairs| ==> !pairs[i].value.Seq?
    ensures RecordCount(pairs) == |pairs|
    decreases |pairs|
  {
    if pairs != [] {
      RecordCountWithoutLists(pairs[..|pairs| - 1]);
    }
  }

  /** Taking one item out of the dict lowers the count by that item's contribution. */
  lemma {:induction false} RecordCountRemove(b: seq<Pair>, j: nat)
    requires j < |b|
    ensures RecordCount(b) == RecordCount(b[..j] + b[j + 1..]) + Contribution(b[j].value)
  {
    var lo, hi := b[..j], b[j + 1..];
    assert b == (lo + [b[j]]) + hi;
    RecordCountAppend(lo + [b[j]], hi);
    RecordCountAppend(lo, hi);
    assert (lo + [b[j]])[..|lo|] == lo;
  }

  /** The count does not depend on the order of the dict's items. */
  lemma {:induction false} RecordCountPermutation(a: seq<Pair>, b: seq<Pair>)
    requires multiset(a) == multiset(b)
    ensures RecordCount(a) == RecordCount(b)
    decreases |a|
  {
    if a == [] {
      assert |b| == |multiset(b)| == 0;
    } else {
      var x := a[|a| - 1];
      var a' := a[..|a| - 1];
      assert a == a' + [x];
      assert x in multiset(b);
      var j :| 0 <= j < |b| && b[j] == x;
      var rest := b[..j] + b[j + 1..];
      assert b == b[..j] + [x] + b[j + 1..];
      assert multiset(a') + multiset{x} == multiset(rest) + multiset{x} by {
        assert multiset(a) == multiset(a') + multiset{x};
        assert multiset(b) == multiset(b[..j]) + multiset{x} + multiset(b[j + 1..]);
        assert multiset(rest) == multiset(b[..j]) + multiset(b[j + 1..]);
      }
      assert multiset(a') == (multiset(a') + multiset{x}) - multiset{x};
      assert multiset(rest) == (multiset(rest) + multiset{x}) - multiset{x};
      RecordCountPermutation(a', rest);
      RecordCountRemove(b, j);
    }
  }

  /** The generator sum of the listing, as a loop over the dict's items. */
  method CountRecords(pairs: seq<Pair>) returns (total: nat)
    ensures total == RecordCount(pairs)
    ensures total == |RecordList(pairs)|
  {
    total := 0;
    var i := 0;
    while i < |pairs|
      invariant 0 <= i <= |pairs|
      invariant total == RecordCount(pairs[..i])
    {
      assert pairs[..i + 1][..i] == pairs[..i];
      total := total + Contribution(pairs[i].value);
      i := i + 1;
    }
    assert pairs[..i] == pairs;
    RecordCountIsNumberOfRecords(pairs);
  }
}

=== FILE: sequences.dfy ===
/** Element-wise mapping of sequences and the facts about permutations the
    listing needs, stated once for any element types. */
module Sequences {

  /** No element appears twice. */
  predicate Distinct<T(==)>(s: seq<T>) {
    forall i, j :: 0 <= i < j < |s| ==> s[i] != s[j]
  }

  /** `[g(x) for x in s]`. */
  function MapSeq<T, U>(s: seq<T>, g: T -> U): (r: seq<U>)
    ensures |r| == |s|
    ensures forall i :: 0 <= i < |s| ==> r[i] == g(s[i])
    decreases |s|
  {
    if s == [] then [] else MapSeq(s[..|s| - 1], g) + [g(s[|s| - 1])]
  }

  /** In a duplicate-free sequence every element occurs exactly once. */
  lemma {:induction false} DistinctMultiplicity<T>(s: seq<T>, x: T)
    requires Distinct(s)
    ensures multiset(s)[x] == if x in s then 1 else 0
    decreases |s|
  {
    if s != [] {
      var s' := s[..|s| - 1];
      assert s == s' + [s[|s| - 1]];
      DistinctMultiplicity(s', x);
    }
  }

  /** Two duplicate-free sequences with the same elements are permutations of each other. */
  lemma {:induction false} DistinctSameElements<T>(a: seq<T>, b: seq<T>)
    requires Distinct(a) && Distinct(b)
    requires forall x :: x in a <==> x in b
    ensures multiset(a) == multiset(b)
  {
    forall x ensures multiset(a)[x] == multiset(b)[x] {
      DistinctMultiplicity(a, x);
      DistinctMultiplicity(b, x);
    }
  }

  /** Removing the element at `j` removes exactly that occurrence from the multiset. */
  lemma {:induction false} MultisetRemoveAt<T>(s: seq<T>, j: nat)
    requires j < |s|
    ensures multiset(s) == multiset(s[..j] + s[j + 1..]) + multiset{s[j]}
  {
    assert s == s[..j] + [s[j]] + s[j + 1..];
    assert multiset(s) == multiset(s[..j]) + multiset{s[j]} + multiset(s[j + 1..]);
    assert multiset(s[..j] + s[j + 1..]) == multiset(s[..j]) + multiset(s[j + 1..]);
  }

  /** Mapping commutes with removing the element at `j`. */
  lemma {:induction false} MapSeqRemoveAt<T, U>(s: seq<T>, j: nat, g: T -> U)
    requires j < |s|
    ensures MapSeq(s[..j] + s[j + 1..], g) == MapSeq(s, g)[..j] + MapSeq(s, g)[j + 1..]
  {
    var rest := s[..j] + s[j + 1..];
    var l, m := MapSeq(rest, g), MapSeq(s, g);
    var r := m[..j] + m[j + 1..];
    forall i | 0 <= i < |l| ensures l[i] == r[i] {
      if i < j {
        assert rest[i] == s[i] && r[i] == m[i];
      } else {
        assert rest[i] == s[i + 1] && r[i] == m[i + 1];
      }
    }
  }

  /** Mapping permutes along with its input. */
  lemma {:induction false} MapSeqPermutation<T, U>(a: seq<T>, b: seq<T>, g: T -> U)
    requires multiset(a) == multiset(b)
    ensures multiset(MapSeq(a, g)) == multiset(MapSeq(b, g))
    decreases |a|
  {
    if a == [] {
      assert |b| == |multiset(b)| == 0;
    } else {
      var n := |a| - 1;
      var x := a[n];
      assert x in multiset(b);
      var j :| 0 <= j < |b| && b[j] == x;
      var rest := b[..j] + b[j + 1..];
      MultisetRemoveAt(a, n);
      MultisetRemoveAt(b, j);
      assert a[..n] + a[n + 1..] == a[..n];
      assert multiset(a[..n]) == multiset(rest) by {
        assert multiset(a[..n]) == multiset(a) - multiset{x};
        assert multiset(rest) == multiset(b) - multiset{x};
      }
      MapSeqPermutation(a[..n], rest, g);
      MapSeqRemoveAt(a, n, g);
      MapSeqRemoveAt(b, j, g);
      MultisetRemoveAt(MapSeq(a, g), n);
      MultisetRemoveAt(MapSeq(b, g), j);
      assert MapSeq(a, g)[n + 1..] == [];
      assert MapSeq(a, g)[..n] + [] == MapSeq(a, g)[..n];
    }
  }
}

=== FILE: yaml.dfy ===
/** The values PyYAML's `safe_load` produces, and the abstract codec around them. */
module Yaml {
  import opened Base

  /** A loaded YAML document. `Other` stands for every remaining scalar or
      collection safe_load can build (float, date, timestamp, bytes, set):
      the model only needs its Python type name and its truthiness. A
      `Mapping` lists the items of the Python dict in insertion order. */
  datatype Value =
    | Null
    | Bool(b: bool)
    | Int(i: int)
    | Str(s: string)
    | Other(typeName: string, truthy: bool)
    | Seq(items: seq<Value>)
    | Mapping(pairs: seq<Pair>)

  datatype Pair = Pair(key: Value, value: Value)

  /** What `yaml.safe_load` does with a text: returns the document, raises
      a `YAMLError` (the text is not well-formed YAML), or raises some other
      exception (a `ValueError` for a timestamp with an impossible date, a
      `RecursionError` for very deep nesting ...). */
  datatype Loaded = Parsed(value: Value) | YamlError(msg: string) | OtherError(msg: string)
  {
    /** The outcome as seen by a caller that catches every exception. */
    function AsResult(): (r: Result<Value>)
      ensures r.Ok? <==> Parsed?
      ensures r.Ok? ==> r.value == value
      ensures r.Err? ==> r.msg == msg
    {
      if Parsed? then Ok(value) else Err(msg)
    }
  }

  /** `yaml.safe_load`. */
  type Parser = string -> Loaded

  /** `yaml.dump`: a value to its block-style text. */
  type Dumper = Value -> string

  /** Python truthiness (`bool(v)`) of a loaded value. */
  predicate Truthy(v: Value) {
    match v
    case Null => false
    case Bool(b) => b
    case Int(i) => i != 0
    case Str(s) => s != []
    case Other(_, t) => t
    case Seq(items) => items != []
    case Mapping(pairs) => pairs != []
  }

  /** The empty dict `{}`. */
  const EmptyMapping: Value := Mapping([])

  /** The name `type(v).__name__` gives for a loaded value. */
  function TypeName(v: Value): string {
    match v
    case Null => "NoneType"
    case Bool(_) => "bool"
    case Int(_) => "int"
    case Str(_) => "str"
    case Other(name, _) => name
    case Seq(_) => "list"
    case Mapping(_) => "dict"
  }

  /** Equality of loaded values with dict item order ignored: equal
      scalars, lists of pairwise equivalent items in the same order, and
      dicts of the same size in which every item of either has an
      equivalent item in the other. On the model's values, and on dicts,
      whose keys are distinct, this is Python's `==`, except that values of
      different types are never equivalent (Python has `1 == True`); an
      `Other` value is compared by its type name and truthiness only. */
  predicate Equiv(a: Value, b: Value)
    decreases a, 2
  {
    match a
    case Seq(xs) =>
      && b.Seq? && |xs| == |b.items|
      && (forall i :: 0 <= i < |xs| ==> Equiv(xs[i], b.items[i]))
    case Mapping(ps) =>
      && b.Mapping? && |ps| == |b.pairs|
      && (forall i :: 0 <= i < |ps| ==> HasMatch(ps[i], b.pairs))
      && (forall j :: 0 <= j < |b.pairs| ==> MatchedIn(b.pairs[j], ps))
    case _ => a == b
  }

  /** Two dict items with equivalent keys and equivalent values. */
  predicate PairEquiv(p: Pair, q: Pair)
    decreases p, 0
  {
    Equiv(p.key, q.key) && Equiv(p.value, q.value)
  }

  /** Some item of `qs` is equivalent to `p`. */
  predicate HasMatch(p: Pair, qs: seq<Pair>)
    decreases p, 1
  {
    exists j :: 0 <= j < |qs| && PairEquiv(p, qs[j])
  }

  /** `q` is equivalent to some item of `ps`. */
  predicate MatchedIn(q: Pair, ps: seq<Pair>)
    decreases ps, 1
  {
    exists i :: 0 <= i < |ps| && PairEquiv(ps[i], q)
  }

  /** Every value is equivalent to itself. */
  lemma {:induction false} EquivReflexive(a: Value)
    ensures Equiv(a, a)
    decreases a
  {
    match a
    case Seq(xs) =>
      forall i | 0 <= i < |xs| ensures Equiv(xs[i], xs[i]) {
        EquivReflexive(xs[i]);
      }
    case Mapping(ps) =>
      forall i | 0 <= i < |ps| ensures PairEquiv(ps[i], ps[i]) {
        EquivReflexive(ps[i].key);
        EquivReflexive(ps[i].value);
      }
      forall i | 0 <= i < |ps| ensures HasMatch(ps[i], ps) && MatchedIn(ps[i], ps) {
        assert PairEquiv(ps[i], ps[i]);
      }
    case _ =>
  }

  /** Equivalence does not depend on which side is which. */
  lemma {:induction false} EquivSymmetric(a: Value, b: Value)
    requires Equiv(a, b)
    ensures Equiv(b, a)
    decreases a
  {
    match a
    case Seq(xs) =>
      forall i | 0 <= i < |xs| ensures Equiv(b.items[i], xs[i]) {
        EquivSymmetric(xs[i], b.items[i]);
      }
    case Mapping(ps) =>
      var qs := b.pairs;
      forall j | 0 <= j < |qs| ensures HasMatch(qs[j], ps) {
        assert MatchedIn(qs[j], ps);
        var i :| 0 <= i < |ps| && PairEquiv(ps[i], qs[j]);
        EquivSymmetric(ps[i].key, qs[j].key);
        EquivSymmetric(ps[i].value, qs[j].value);
        assert PairEquiv(qs[j], ps[i]);
      }
      forall i | 0 <= i < |ps| ensures MatchedIn(ps[i], qs) {
        assert HasMatch(ps[i], qs);
        var j :| 0 <= j < |qs| && PairEquiv(ps[i], qs[j]);
        EquivSymmetric(ps[i].key, qs[j].key);
        EquivSymmetric(ps[i].value, qs[j].value);
        assert PairEquiv(qs[j], ps[i]);
      }
    case _ =>
  }

  /** Two values equivalent to a common one are equivalent. */
  lemma {:induction false} EquivTransitive(a: Value, b: Value, c: Value)
    requires Equiv(a, b) && Equiv(b, c)
    ensures Equiv(a, c)
    decreases a, 2
  {
    match a
    case Seq(xs) =>
      forall i | 0 <= i < |xs| ensures Equiv(xs[i], c.items[i]) {
        EquivTransitive(xs[i], b.items[i], c.items[i]);
      }
    case Mapping(ps) =>
      MatchesCompose(ps, b.pairs, c.pairs);
      MatchedInCompose(ps, b.pairs, c.pairs);
    case _ =>
  }

  /** Every item of `ps` has a match in `rs` when it has one in `qs` and
      every item of `qs` has one in `rs`. */
  lemma {:induction false} MatchesCompose(ps: seq<Pair>, qs: seq<Pair>, rs: seq<Pair>)
    requires forall i :: 0 <= i < |ps| ==> HasMatch(ps[i], qs)
    requires forall j :: 0 <= j < |qs| ==> HasMatch(qs[j], rs)
    ensures forall i :: 0 <= i < |ps| ==> HasMatch(ps[i], rs)
    decreases ps, 1
  {
    forall i | 0 <= i < |ps| ensures HasMatch(ps[i], rs) {
      var j :| 0 <= j < |qs| && PairEquiv(ps[i], qs[j]);
      var k :| 0 <= k < |rs| && PairEquiv(qs[j], rs[k]);
      PairEquivTransitive(ps[i], qs[j], rs[k]);
    }
  }

  /** Every item of `rs` is matched in `ps` when it is matched in `qs` and
      every item of `qs` is matched in `ps`. */
  lemma {:induction false} MatchedInCompose(ps: seq<Pair>, qs: seq<Pair>, rs: seq<Pair>)
    requires forall j :: 0 <= j < |qs| ==> MatchedIn(qs[j], ps)
    requires forall k :: 0 <= k < |rs| ==> MatchedIn(rs[k], qs)
    ensures forall k :: 0 <= k < |rs| ==> MatchedIn(rs[k], ps)
    decreases ps, 1
  {
    forall k | 0 <= k < |rs| ensures MatchedIn(rs[k], ps) {
      var j :| 0 <= j < |qs| && PairEquiv(qs[j], rs[k]);
      var i :| 0 <= i < |ps| && PairEquiv(ps[i], qs[j]);
      PairEquivTransitive(ps[i], qs[j], rs[k]);
    }
  }

  /** Transitivity for dict items. */
  lemma {:induction false} PairEquivTransitive(p: Pair, q: Pair, r: Pair)
    requires PairEquiv(p, q) && PairEquiv(q, r)
    ensures PairEquiv(p, r)
    decreases p, 0
  {
    EquivTransitive(p.key, q.key, r.key);
    EquivTransitive(p.value, q.value, r.value);
  }

  /** Equivalent values have the same type and the same truthiness. */
  lemma EquivKeepsTypeAndTruth(a: Value, b: Value)
    requires Equiv(a, b)
    ensures TypeName(a) == TypeName(b)
    ensures Truthy(a) <==> Truthy(b)
  {
  }

  /** Reordering the items of a dict gives an equivalent dict. */
  lemma {:induction false} ReorderedMappingEquiv(ps: seq<Pair>, qs: seq<Pair>)
    requires multiset(ps) == multiset(qs)
    ensures Equiv(Mapping(ps), Mapping(qs))
  {
    assert |ps| == |multiset(ps)| == |qs|;
    forall i | 0 <= i < |ps| ensures HasMatch(ps[i], qs) {
      assert ps[i] in multiset(qs);
      var j :| 0 <= j < |qs| && qs[j] == ps[i];
      EquivReflexive(ps[i].key);
      EquivReflexive(ps[i].value);
      assert PairEquiv(ps[i], qs[j]);
    }
    forall j | 0 <= j < |qs| ensures MatchedIn(qs[j], ps) {
      assert qs[j] in multiset(ps);
      var i :| 0 <= i < |ps| && ps[i] == qs[j];
      EquivReflexive(qs[j].key);
      EquivReflexive(qs[j].value);
      assert PairEquiv(ps[i], qs[j]);
    }
  }

  /** The serialisation of `v` parses back to a value equivalent to `v`.
      `yaml.dump` writes dict items sorted by key, so loading its output
      gives the same dict with its items possibly in another order; the
      model takes this as a hypothesis where it is needed. */
  predicate RoundTrips(parse: Parser, dump: Dumper, v: Value) {
    parse(dump(v)).Parsed? && Equiv(parse(dump(v)).value, v)
  }
}

=== FILE: zone_store.dfy ===
/** The zone directory and the two primitives over it, `load_zone` and
    `save_zone` (app/app.py). The directory is the only state: there is no
    cache, so every operation reads or replaces it whole. */
module ZoneStore {
  import opened Base
  import opened Yaml

  /** One directory entry: a readable file with its text, or an entry that
      `open` cannot read (a sub-directory, a permission failure), with the
      message of the exception it raises. */
  datatype Entry = File(text: string) | Unreadable(reason: string)

  /** The configured zone directory, which may not exist yet. Entries are
      keyed by file name. */
  datatype Dir = Absent | Present(entries: map<string, Entry>)

  /** What `load_zone` hands back: `None`, the loaded data, or the exception
      it lets escape. */
  datatype LoadResult = NotFound | Found(data: Value) | Raised(msg: string)

  /** The entries of the directory; none when it does not exist. */
  function Entries(dir: Dir): map<string, Entry> {
    if dir.Present? then dir.entries else map[]
  }

  /** The file backing a zone: `<zone>.yaml`. */
  function ZoneFile(zone: string): (f: string)
    ensures |f| == |zone| + 5 && f[..|zone|] == zone
  {
    zone + ".yaml"
  }

  /** Distinct zones live in distinct files. */
  lemma ZoneFileInjective(a: string, b: string)
    requires ZoneFile(a) == ZoneFile(b)
    ensures a == b
  {
    assert a == ZoneFile(a)[..|a|];
  }

  /** `Path(...).exists()` for the zone's file. */
  predicate ZoneExists(dir: Dir, zone: string) {
    ZoneFile(zone) in Entries(dir)
  }

  /** `open` followed by `yaml.safe_load`: the parsed text, or the
      exception, whichever kind it is. */
  function ReadEntry(e: Entry, parse: Parser): Result<Value> {
    match e
    case File(text) => parse(text).AsResult()
    case Unreadable(reason) => Err(reason)
  }

  /** `load_zone`: `None` exactly when the file is absent; a read or parse
      failure escapes; otherwise the data, with every falsy document (null,
      empty, `0`, `[]` ...) replaced by `{}` through `or {}`. */
  function LoadZone(dir: Dir, zone: string, parse: Parser): (r: LoadResult)
    ensures r.NotFound? <==> !ZoneExists(dir, zone)
    ensures r.Raised? <==>
      ZoneExists(dir, zone) && ReadEntry(Entries(dir)[ZoneFile(zone)], parse).Err?
    ensures r.Found? ==> Truthy(r.data) || r.data == EmptyMapping
    ensures r.Found? ==>
      var d := ReadEntry(Entries(dir)[ZoneFile(zone)], parse).value;
      Truthy(d) ==> r.data == d
    ensures r.Found? ==>
      var d := ReadEntry(Entries(dir)[ZoneFile(zone)], parse).value;
      !Truthy(d) ==> r.data == EmptyMapping
  {
    if !ZoneExists(dir, zone) then NotFound
    else
      match ReadEntry(Entries(dir)[ZoneFile(zone)], parse)
      case Err(msg) => Raised(msg)
      case Ok(d) => Found(if Truthy(d) then d else EmptyMapping)
  }

  /** `save_zone`: the directory is created if needed and the zone's file is
      overwritten unconditionally with the dump of `data`; no other entry
      changes. */
  function SaveZone(dir: Dir, zone: string, data: Value, dump: Dumper): (d: Dir)
    ensures d.Present?
    ensures d.entries.Keys == Entries(dir).Keys + {ZoneFile(zone)}
    ensures d.entries[ZoneFile(zone)] == File(dump(data))
    ensures forall f :: f in Entries(dir) && f != ZoneFile(zone) ==> d.entries[f] == Entries(dir)[f]
  {
    Present(Entries(dir)[ZoneFile(zone) := File(dump(data))])
  }

  /** Saving and loading back returns the data, up to dict item order and
      `or {}`, whenever the serialisation round-trips. */
  lemma SaveThenLoad(dir: Dir, zone: string, data: Value, parse: Parser, dump: Dumper)
    requires RoundTrips(parse, dump, data)
    ensures var r := LoadZone(SaveZone(dir, zone, data, dump), zone, parse);
      && r.Found?
      && (Truthy(data) ==> Equiv(r.data, data))
      && (!Truthy(data) ==> r.data == EmptyMapping)
  {
    EquivKeepsTypeAndTruth(parse(dump(data)).value, data);
  }

  /** When the serialisation parses back to exactly the data, so does the
      load, up to `or {}`. */
  lemma SaveThenLoadExactly(dir: Dir, zone: string, data: Value, parse: Parser, dump: Dumper)
    requires parse(dump(data)) == Parsed(data)
    ensures LoadZone(SaveZone(dir, zone, data, dump), zone, parse)
            == Found(if Truthy(data) then data else EmptyMapping)
  {
  }

  /** Saving one zone leaves what every other zone loads as it was. */
  lemma SaveKeepsOtherZones(dir: Dir, zone: string, other: string, data: Value,
                            parse: Parser, dump: Dumper)
    requires other != zone
    ensures LoadZone(SaveZone(dir, zone, data, dump), other, parse) == LoadZone(dir, other, parse)
  {
    if ZoneFile(other) == ZoneFile(zone) {
      ZoneFileInjective(other, zone);
    }
  }

  /** The last save wins: a second save of a zone discards the first. */
  lemma SaveOverwrites(dir: Dir, zone: string, first: Value, second: Value, dump: Dumper)
    ensures SaveZone(SaveZone(dir, zone, first, dump), zone, second, dump)
            == SaveZone(dir, zone, second, dump)
  {
  }
}
